=== FILE: README.md ===
# discord-news-bot: the polling core in Dafny

The bot polls two Google News listing pages, a US feed and a world feed. On
each poll it pairs the scraped dates with the scraped headlines and removes
duplicates. It then compares the result with the listing cached in a pickle
file. If the comparison says "same", it stops. Otherwise it overwrites the
cache and runs the whole listing through three stages: resolve each headline
to an article by searching for it, summarise each article body, and post one
Discord embed whose description lists every entry. `_summarizer.py` cuts the
summariser's input to 512 space-separated fields. Its text normalisation,
`clean_text`, is called only from `summarize_optimal`, which the bot never
calls: the article bodies reach the model without it.

This project models the deterministic rules of that loop as pure functions
over sequences. The collaborators (search request, browser plus extractor,
summarisation model) are function parameters. An exception in one of them is
a `None` result. The pickle file is an `Option<seq<Pair>>` state, and a poll
returns its observable actions, in order, as a list of effects.

Modules, one per concern:

- `Wrappers`: `Option`.
- `PyStr`: Python `str` primitives: `split()`, `split(" ")`, `join`, `in`, `replace`.
- `TextSummarizer`: the 512-field truncation of `summarize`, and `clean_text` (unused by the bot).
- `Listing`: pairing, set deduplication, and the cache comparison.
- `Search`: the query string and link choice of `google`.
- `Pipeline`: `scrape_news_links` and `summarize_news`.
- `Digest`: the embed description.
- `Poll`: one poll of `scan_us_news` (`scan_world_news` is the same).

## Behaviour of the code worth knowing

The model follows the code in each case below.

- Change detection is not a set difference. The docstring of `_check_pickle_cache_with_results` says it checks all items and reports any difference, but the code compares titles position by position over the shorter of the two lists and ignores dates (`Listing.CacheMatches`). If anything differs, the whole listing is scraped and posted again, not only the new items (`Poll.WholeListingIsReprocessed`).
- An empty cached listing makes every later poll quiet, so nothing is ever posted again (`Poll.EmptyCacheStaysQuiet`). Only a cold start that finds no headlines writes one: a warm poll that finds none compares "same" and keeps its cache.
- The listing order after deduplication is the iteration order of a Python set. The model takes the deduplicated listing as an input constrained by `Listing.IsDedupOf`. `Listing.Dedup` is one admissible order. Because the comparison is positional, the set order alone can make an unchanged listing compare "different" (`Listing.SetOrderCanLookLikeAChange`).
- There is no cold-start option. Without a cache file the poll always runs the pipeline.
- There is no skip-on-empty. An empty listing still posts an empty description (`Poll.ColdStartPostsEvenWhenEmpty`).
- A summariser failure is not isolated per item. `summarize_news` has no `try`, so one failure ends the poll after the cache write and before the post (`Poll.SummaryFailureLosesBatch`). Nothing above it catches the exception either, so in the bot it also ends the polling loop; `Poll.PollMany` describes only polls that return. Resolution failures are isolated per item.
- The 4096-character cut is a plain slice and can end inside an entry (`Digest.CutFallsInsideAnEntry`).

## Model

| member | source | states |
|---|---|---|
| `Listing.FreshListing` | discord_news.py:160-167 | entry i is (dates[i], headlines[i]); length is at most either list and at most a non-negative limit, and equals min(limit, |dates|, |headlines|) |
| `Listing.Dedup` | discord_news.py:168 | the result holds no duplicate pair and exactly the pairs of the input, and is no longer than it |
| `Listing.DedupUniqueUpToOrder` | discord_news.py:168 | any two outcomes of the set round trip are permutations of each other (same multiset, same length) |
| `Listing.DedupListingBounded` | discord_news.py:160-168 | every deduplicated listing is bounded by the feed limit and by both scraped lists |
| `Listing.CacheMatches` | discord_news.py:392-424 | "same" holds iff cache[i].title == results[i].title for every i below both lengths |
| `Listing.CacheMatchesIgnoresDates` | discord_news.py:409-421 | changing only dates never changes the comparison |
| `Listing.CacheMatchesOnTitlePrefix` | discord_news.py:408-424 | an empty cache, or either list's titles being a prefix of the other's, reports "same" |
| `Listing.CacheMismatchAt` | discord_news.py:417-421 | a title differing at any shared position reports "different" |
| `Listing.SetOrderCanLookLikeAChange` | discord_news.py:168-176 | the same scraped pairs admit two deduplicated orders, and a cache written in one compares "different" against the other |
| `Listing.CacheMatchesIsNotSetDifference` | discord_news.py:408-424 | a new headline against an empty cache reports "same"; the same headlines reordered report "different" |
| `Search.QueryString` | discord_news.py:451 | the query holds no whitespace, is empty for a blank headline, and splitting it on `+` gives back the headline's words when no word holds `+` |
| `Pipeline.Google` | discord_news.py:426-467 | the lookup fails iff the search request fails; with no results it answers ""; otherwise it answers one of the result links: the first one without "youtube" when there is one, and the last link when every link mentions "youtube" |
| `Search.SelectLink` | discord_news.py:457-467 | returns the first href without "youtube"; the last href if all contain it; "" if there are none; otherwise always one of the hrefs |
| `Pipeline.ResolveItem` | discord_news.py:263-285 | an entry resolves iff the search succeeds and the selected link renders; the article keeps the entry's date and title, its link is the one `google` selected, and its body is the text rendered from that link |
| `Pipeline.ScrapeNewsLinks` | discord_news.py:261-287 | the scraped list is never longer than the listing |
| `Pipeline.ScrapedArticlesResolve` | discord_news.py:263-285 | every scraped article is the successful resolution of some listing entry |
| `Pipeline.ScrapedArticlesComeFromListing` | discord_news.py:263-281 | every scraped article's (date, title) is a pair of the listing |
| `Pipeline.ScrapeAppend` | discord_news.py:263-285 | scraping a concatenation scrapes each part in turn, so input order is kept |
| `Pipeline.ScrapeKeepsResolved` | discord_news.py:263-281 | an entry that resolves has its article in the output, after the articles of the entries before it and before those of the entries after it |
| `Pipeline.ScrapeDropsFailure` | discord_news.py:266-285 | an entry that fails is left out and the others come through in order |
| `Pipeline.ScrapeAllResolved` | discord_news.py:263-281 | when every entry resolves, the result has the listing's length and element i is entry i's article |
| `Pipeline.SummarizeNews` | discord_news.py:299-312 | succeeds iff every body summarises; then same length, same date, title and link, body replaced by its summary |
| `TextSummarizer.CleanText` | _summarizer.py:50-64 | the result has no newline, is normalised (single `' '` between words, none at the ends), and has the same words as the input |
| `TextSummarizer.CleanTextFixpoints` | _summarizer.py:61-64 | clean_text leaves a text unchanged iff the text is normalised |
| `TextSummarizer.CleanTextIdempotent` | _summarizer.py:61-64 | cleaning twice equals cleaning once |
| `TextSummarizer.TruncateFields` | _summarizer.py:81 | the result is a prefix of the text; for n > 0 its space-separated fields are exactly the first min(n, count) fields of the text, so at most n; it is the text itself when that has at most n fields |
| `TextSummarizer.Summarize` | _summarizer.py:80-89 | the model sees the body unchanged when it has at most 512 space-separated fields, and otherwise the first 512 fields joined by single spaces |
| `TextSummarizer.SummarizeInputBounded` | _summarizer.py:80-81 | the model input is a prefix of the body whose fields are exactly the body's first min(512, count) fields, and is the whole body when it is short enough |
| `PyStr.WordsOfJoin` | _summarizer.py:63 | splitting words joined by single spaces gives the words back |
| `PyStr.JoinSplit` | _summarizer.py:81 | joining the fields of `split(" ")` with a space gives the text back |
| `PyStr.SplitJoin` | _summarizer.py:81 | splitting a join of fields with no space gives the fields back |
| `PyStr.ReplaceCharIsPointwise` | _summarizer.py:61 | replacing newlines by spaces keeps the length and maps each character on its own |
| `PyStr.ReplaceCanLeaveThePattern` | discord_news.py:329 | removing "www." can splice a new "www." together |
| `Digest.Description` | discord_news.py:325-335 | the description is a prefix of the joined blocks and at most 4096 characters; it is the full text when that fits, exactly 4096 characters otherwise, and empty for no entries |
| `Digest.EntryBlock` | discord_news.py:326-333 | a block starts with the separator line and ends with a newline; when no field holds a line break, its lines are exactly: 56 dashes, the title in `**`, the date in `*`, the link after `replace("www.", "")` (occurrences deleted left to right, without overlap, so a new "www." can remain), an empty line, the summary |
| `Digest.LinkWithoutWwwIsKept` | discord_news.py:329 | a link that does not contain "www." is posted unchanged |
| `Digest.BlockPosition` | discord_news.py:325-333 | entry i's whole block follows the blocks of entries before it |
| `Digest.CutFallsInsideAnEntry` | discord_news.py:334-335 | an entry with a 4096-character summary is posted cut off |
| `Poll.Poll` | discord_news.py:169-192 | quiet (no effect, cache kept) iff a cache exists and matches. Otherwise the cache becomes the listing, written before scraping, and the whole listing is scraped. A post follows iff every summary succeeds, and its description is exactly `Description` of the summarised articles, so at most 4096 characters. A cold start always runs |
| `Poll.Scan` | discord_news.py:160-190 | after a poll that runs, the cache holds the deduplicated listing: no duplicates, only listed pairs, within the limit |
| `Poll.PollMany` | discord_news.py:469-484 | over successive ticks, the final cache is the initial one or one of the polled listings; after at least one tick a cache exists; no effect means the cache is unchanged; at most 4 × ticks effects in all |
| `Poll.PollManyLastTick` | discord_news.py:469-484 | one more tick leaves exactly the cache that tick's poll leaves, and appends exactly that poll's effects to those of the earlier ticks |
| `Poll.ReplayIsQuiet` | discord_news.py:169-183 | polling the same listing again right after is quiet |
| `Poll.DateOnlyChangesAreQuiet` | discord_news.py:169-176 | a listing that differs from the cache only in dates is quiet and leaves the cache unchanged |
| `Poll.EmptyCacheStaysQuiet` | discord_news.py:169-176 | from an empty cached listing, any sequence of polls is quiet and the cache stays empty |
| `Poll.ColdStartPostsEvenWhenEmpty` | discord_news.py:184-190 | with no cache file and an empty listing, the poll writes, scrapes, summarises and posts "" |
| `Poll.SummaryFailureLosesBatch` | discord_news.py:178-182 | if one summary fails, the cache has advanced, nothing is posted, and a replay is quiet |
| `Poll.WholeListingIsReprocessed` | discord_news.py:177-182 | after [X,Y,Z], the listing [Y,Z,W] scrapes all three entries and replaces the cache |

## Left out

- Fetching and parsing the listing page (requests, BeautifulSoup class selectors). These are I/O and an external parser. The date and headline texts are inputs.
- The search request and result-page parse in `google`. The `search` collaborator returns the hrefs of the result divs. A result div without an anchor, which raises inside the loop, is not modelled.
- The Selenium driver, user-agent interception and goose extraction. These are foreign calls. The `render` collaborator stands for all of them, with `None` for any exception.
- The BART model call and its `round(fraction * word_count)` length bounds. These are an external model and float rounding. The `model` collaborator receives the truncated text.
- `summarize_optimal`: it uses an external clustering model and is not called by the bot.
- Pickle file I/O and the `./data` directory. The cache is a state value. A corrupt pickle, which raises out of the poll, is not modelled.
- Which file buffer holds the cache write while the world feed's cold start runs its pipeline inside the `with` block. This is about flush timing only.
- The return values of `scan_us_news` and `scan_world_news`. The loops discard them.
- `time.sleep(3)`, the `tasks.loop` timers, `create_task` and async scheduling. These are timing and concurrency.
- The first-run flags in `scan_us_news_loop` and `scan_world_news_loop`. Both branches run the same poll.
- The embed header with its wall-clock timestamp, the embed title, and the channel send. These are I/O and the clock.
- Logging with `print`.
- `Listing.CacheMatches`: the `x is y` shortcut is dropped. An entry loaded from pickle is never the same object as a fresh one, and taking the shortcut would give the same answer anyway.

=== FILE: digest.dfy ===
/** The embed description built by `post_us_news` / `post_world_news`. The
    header line with the wall-clock timestamp and the send itself are not
    modelled. */
module Digest {
  import opened PyStr
  import opened Pipeline

  /** `c * n`: the character `c` repeated `n` times. */
  function Repeat(c: char, n: nat): (s: string)
    ensures |s| == n
    ensures forall i :: 0 <= i < n ==> s[i] == c
  {
    if n == 0 then "" else [c] + Repeat(c, n - 1)
  }

  /** The 56 dashes that separate the entries. */
  const Dashes: string := Repeat('-', 56)

  /** The dashes and a newline, the first line of every entry's block. */
  const Separator: string := Dashes + "\n"

  /** Discord's limit on an embed description, applied by `descr[:4096]`. */
  const DescriptionLimit: nat := 4096

  /** A link that does not contain `"www."` is posted as it is. */
  lemma LinkWithoutWwwIsKept(a: Article)
    requires !Contains(a.link, "www.")
    ensures EntryLines(a)[3] == a.link
  {
    ReplaceAbsent(a.link, "www.", "");
  }

  /** The lines of one entry's block: the dashes, the title in bold, the date
      in italics, the link after `replace("www.", "")` (which deletes the
      occurrences found left to right, without overlap), a blank line, the
      summary, and the empty rest after the final newline. */
  function EntryLines(a: Article): seq<string> {
    [Dashes, "**" + a.title + "**", "*" + a.date + "*", Replace(a.link, "www.", ""), "", a.body, ""]
  }

  /** The text one entry adds. When none of the entry's fields holds a line
      break, splitting the block at line breaks gives back exactly its lines,
      in order. */
  function EntryBlock(a: Article): (b: string)
    ensures |Separator| < |b| && b[..|Separator|] == Separator
    ensures b[|b| - 1] == '\n'
    ensures '\n' !in a.title && '\n' !in a.date && '\n' !in a.link && '\n' !in a.body
            ==> Split(b, '\n') == EntryLines(a)
  {
    var b := Separator + "**" + a.title + "**" + "\n" + "*" + a.date + "*" + "\n"
      + Replace(a.link, "www.", "") + "\n\n" + a.body + "\n";
    EntryBlockIsJoin(a);
    if '\n' !in a.title && '\n' !in a.date && '\n' !in a.link && '\n' !in a.body then
      ReplaceKeepsOut(a.link, "www.", "", '\n');
      assert '\n' !in "**" + a.title + "**";
      assert '\n' !in "*" + a.date + "*";
      SplitJoin(EntryLines(a), '\n');
      b
    else b
  }

  /** Seven lines joined with line breaks. */
  lemma JoinSevenLines(l0: string, l1: string, l2: string, l3: string, l4: string, l5: string, l6: string)
    ensures Join([l0, l1, l2, l3, l4, l5, l6], "\n")
            == l0 + "\n" + l1 + "\n" + l2 + "\n" + l3 + "\n" + l4 + "\n" + l5 + "\n" + l6
  {
    JoinCons(l5, [l6], "\n");
    JoinCons(l4, [l5, l6], "\n");
    JoinCons(l3, [l4, l5, l6], "\n");
    JoinCons(l2, [l3, l4, l5, l6], "\n");
    JoinCons(l1, [l2, l3, l4, l5, l6], "\n");
    JoinCons(l0, [l1, l2, l3, l4, l5, l6], "\n");
  }

  /** The block layout, over plain strings: the pieces joined with line
      breaks. */
  lemma LinesOfBlock(dashes: string, title: string, date: string, link: string, body: string)
    ensures dashes + "\n" + "**" + title + "**" + "\n" + "*" + date + "*" + "\n"
              + link + "\n\n" + body + "\n"
            == Join([dashes, "**" + title + "**", "*" + date + "*", link, "", body, ""], "\n")
  {
    var l1 := "**" + title + "**";
    var l2 := "*" + date + "*";
    JoinSevenLines(dashes, l1, l2, link, "", body, "");
    var head := dashes + "\n" + l1 + "\n" + l2 + "\n";
    assert dashes + "\n" + "**" + title + "**" + "\n" + "*" + date + "*" + "\n" == head;
    assert head + link + "\n\n" + body + "\n" == head + link + "\n" + "" + "\n" + body + "\n" + "";
  }

  /** The block is the entry's lines joined with line breaks. */
  lemma EntryBlockIsJoin(a: Article)
    ensures Separator + "**" + a.title + "**" + "\n" + "*" + a.date + "*" + "\n"
              + Replace(a.link, "www.", "") + "\n\n" + a.body + "\n"
            == Join(EntryLines(a), "\n")
  {
    LinesOfBlock(Dashes, a.title, a.date, Replace(a.link, "www.", ""), a.body);
  }

  /** The blocks of all entries, in order, before the cut. */
  function Blocks(entries: seq<Article>): string
  {
    Join(seq(|entries|, i requires 0 <= i < |entries| => EntryBlock(entries[i])), "")
  }

  /** The posted description: the blocks cut at 4096 characters, with no
      check for an empty list. */
  function Description(entries: seq<Article>): (d: string)
    ensures d <= Blocks(entries)
    ensures |d| <= DescriptionLimit
    ensures |Blocks(entries)| <= DescriptionLimit ==> d == Blocks(entries)
    ensures |Blocks(entries)| > DescriptionLimit ==> |d| == DescriptionLimit
    ensures entries == [] ==> d == ""
  {
    var all := Blocks(entries);
    if |all| <= DescriptionLimit then all else all[..DescriptionLimit]
  }

  /** The blocks of a concatenation are the concatenation of the blocks. */
  lemma BlocksAppend(xs: seq<Article>, ys: seq<Article>)
    ensures Blocks(xs + ys) == Blocks(xs) + Blocks(ys)
  {
    var bx := seq(|xs|, i requires 0 <= i < |xs| => EntryBlock(xs[i]));
    var bys := seq(|ys|, i requires 0 <= i < |ys| => EntryBlock(ys[i]));
    assert seq(|xs + ys|, i requires 0 <= i < |xs + ys| => EntryBlock((xs + ys)[i])) == bx + bys;
    JoinNothingAppend(bx, bys);
  }

  lemma BlocksOfOne(a: Article)
    ensures Blocks([a]) == EntryBlock(a)
  {
    var parts := [EntryBlock(a)];
    assert seq(1, i requires 0 <= i < 1 => EntryBlock([a][i])) == parts;
  }

  /** Entry `i`'s block sits, whole, after the blocks of the entries before it:
      the digest keeps the order of its input. */
  lemma BlockPosition(entries: seq<Article>, i: nat)
    requires i < |entries|
    ensures Blocks(entries) == Blocks(entries[..i]) + EntryBlock(entries[i]) + Blocks(entries[i + 1..])
  {
    assert entries == entries[..i] + [entries[i]] + entries[i + 1..];
    BlocksAppend(entries[..i] + [entries[i]], entries[i + 1..]);
    BlocksAppend(entries[..i], [entries[i]]);
    BlocksOfOne(entries[i]);
  }

  /** The cut is a plain slice, not a whole-entry policy: one entry whose
      summary is longer than the limit is posted cut off inside its block. */
  lemma CutFallsInsideAnEntry(a: Article)
    requires |a.body| >= DescriptionLimit
    ensures |Description([a])| == DescriptionLimit
    ensures Description([a]) != Blocks([a])
  {
    BlocksOfOne(a);
  }
}

=== FILE: listing.dfy ===
/** The listing side of `scan_us_news` / `scan_world_news`: pairing the scraped
    dates with the scraped headlines, removing duplicates through a set, and
    `_check_pickle_cache_with_results`, which decides whether anything changed
    since the cached listing. */
module Listing {
  import opened PyStr

  /** One listing entry, `[date.text, title.text]`. */
  datatype Pair = Pair(date: string, title: string)

  /** Python's `s[:k]`; a negative `k` counts from the end. */
  function SliceTo<T>(s: seq<T>, k: int): (r: seq<T>)
    ensures r <= s
    ensures 0 <= k ==> |r| == Min(k, |s|)
    ensures k < 0 ==> |r| == if |s| + k < 0 then 0 else |s| + k
  {
    if 0 <= k then (if k < |s| then s[..k] else s)
    else if |s| + k < 0 then []
    else s[..|s| + k]
  }

  /** `zip(dates, headlines)` as a list of pairs. */
  function Zip(dates: seq<string>, headlines: seq<string>): seq<Pair>
  {
    seq(Min(|dates|, |headlines|), i requires 0 <= i < Min(|dates|, |headlines|) => Pair(dates[i], headlines[i]))
  }

  /** Both lists capped to the feed limit, then paired position by position:
      the listing before duplicate removal. */
  function FreshListing(dates: seq<string>, headlines: seq<string>, limit: int): (r: seq<Pair>)
    ensures |r| <= |dates| && |r| <= |headlines|
    ensures 0 <= limit ==> |r| <= limit
    ensures 0 <= limit ==> |r| == Min(limit, Min(|dates|, |headlines|))
    ensures forall i :: 0 <= i < |r| ==> r[i] == Pair(dates[i], headlines[i])
  {
    Zip(SliceTo(dates, limit), SliceTo(headlines, limit))
  }

  predicate NoDuplicates<T(==)>(s: seq<T>) {
    forall i, j :: 0 <= i < j < |s| ==> s[i] != s[j]
  }

  /** What `[list(x) for x in set(tuple(x) for x in results)]` promises: every
      pair once, nothing added, nothing lost, in an order the set chooses. */
  predicate IsDedupOf<T(==)>(r: seq<T>, xs: seq<T>) {
    && NoDuplicates(r)
    && (forall i :: 0 <= i < |r| ==> r[i] in xs)
    && (forall i :: 0 <= i < |xs| ==> xs[i] in r)
  }

  /** One admissible outcome of the set round trip: first occurrences, in order. */
  function Dedup<T(==)>(xs: seq<T>): (r: seq<T>)
    ensures IsDedupOf(r, xs)
    ensures |r| <= |xs|
  {
    if |xs| == 0 then []
    else
      var d := Dedup(xs[..|xs| - 1]);
      var last := xs[|xs| - 1];
      assert xs == xs[..|xs| - 1] + [last];
      if last in d then d else d + [last]
  }

  lemma {:induction false} NoDuplicatesCount<T>(r: seq<T>, p: T)
    requires NoDuplicates(r)
    ensures multiset(r)[p] == if p in r then 1 else 0
  {
    if |r| > 0 {
      var init := r[..|r| - 1];
      assert r == init + [r[|r| - 1]];
      assert NoDuplicates(init);
      NoDuplicatesCount(init, p);
      assert r[|r| - 1] !in init;
    }
  }

  /** Any two outcomes of the set round trip hold the same pairs, each once:
      they differ only in order. */
  lemma DedupUniqueUpToOrder<T>(r1: seq<T>, r2: seq<T>, xs: seq<T>)
    requires IsDedupOf(r1, xs) && IsDedupOf(r2, xs)
    ensures multiset(r1) == multiset(r2)
    ensures |r1| == |r2|
  {
    forall p ensures multiset(r1)[p] == multiset(r2)[p] {
      NoDuplicatesCount(r1, p);
      NoDuplicatesCount(r2, p);
    }
    assert multiset(r1) == multiset(r2);
    assert |multiset(r1)| == |r1| && |multiset(r2)| == |r2|;
  }

  /** The deduplicated listing is never longer than the feed limit nor than
      either scraped list. */
  lemma DedupListingBounded(r: seq<Pair>, dates: seq<string>, headlines: seq<string>, limit: int)
    requires IsDedupOf(r, FreshListing(dates, headlines, limit))
    ensures |r| <= |dates| && |r| <= |headlines|
    ensures 0 <= limit ==> |r| <= limit
  {
    var xs := FreshListing(dates, headlines, limit);
    DedupUniqueUpToOrder(r, Dedup(xs), xs);
  }

  /** `_check_pickle_cache_with_results` as it behaves: `zip` stops at the
      shorter list, and for each pair only index 1, the title, is compared
      (`type(x == list)` is always truthy and every fresh entry is a list). */
  function CacheMatches(cache: seq<Pair>, results: seq<Pair>): (same: bool)
    ensures same <==> forall i :: 0 <= i < |cache| && i < |results| ==> cache[i].title == results[i].title
  {
    if |cache| == 0 || |results| == 0 then true
    else
      var rest := CacheMatches(cache[1..], results[1..]);
      assert forall i :: 1 <= i < |cache| && i < |results| ==>
        cache[i] == cache[1..][i - 1] && results[i] == results[1..][i - 1];
      cache[0].title == results[0].title && rest
  }

  function Titles(xs: seq<Pair>): (ts: seq<string>)
    ensures |ts| == |xs|
    ensures forall i :: 0 <= i < |xs| ==> ts[i] == xs[i].title
  {
    seq(|xs|, i requires 0 <= i < |xs| => xs[i].title)
  }

  /** Dates never matter: listings whose titles agree compare alike. */
  lemma CacheMatchesIgnoresDates(cache: seq<Pair>, cache': seq<Pair>, results: seq<Pair>, results': seq<Pair>)
    requires Titles(cache) == Titles(cache') && Titles(results) == Titles(results')
    ensures CacheMatches(cache, results) == CacheMatches(cache', results')
  {
    assert |cache| == |cache'| && |results| == |results'|;
    forall i | 0 <= i < |cache| && i < |results|
      ensures cache[i].title == cache'[i].title && results[i].title == results'[i].title
    {
      assert Titles(cache)[i] == Titles(cache')[i];
      assert Titles(results)[i] == Titles(results')[i];
    }
  }

  /** Lengths are never compared: an empty cache, a cache whose titles begin
      the fresh listing, and a fresh listing whose titles begin the cache all
      report "same". */
  lemma CacheMatchesOnTitlePrefix(cache: seq<Pair>, results: seq<Pair>)
    requires Titles(cache) <= Titles(results) || Titles(results) <= Titles(cache)
    ensures CacheMatches(cache, results)
  {
    forall i | 0 <= i < |cache| && i < |results|
      ensures cache[i].title == results[i].title
    {
      assert Titles(cache)[i] == Titles(results)[i];
    }
  }

  /** A title that differs at a shared position is always noticed. */
  lemma CacheMismatchAt(cache: seq<Pair>, results: seq<Pair>, i: nat)
    requires i < |cache| && i < |results|
    requires cache[i].title != results[i].title
    ensures !CacheMatches(cache, results)
  {
  }

  /** The comparison is not a set difference: a listing whose every headline is
      new still compares "same" against an empty cache, and the same headlines
      in another order compare "different". */
  lemma CacheMatchesIsNotSetDifference()
    ensures CacheMatches([], [Pair("t1", "X")])
    ensures !CacheMatches([Pair("t1", "X"), Pair("t2", "Y")], [Pair("t2", "Y"), Pair("t1", "X")])
  {
    assert [Pair("t1", "X"), Pair("t2", "Y")][0].title != [Pair("t2", "Y"), Pair("t1", "X")][0].title;
  }

  /** The set order alone can make an unchanged listing look changed: the same
      scraped pairs admit two deduplicated orders, and the cache written in
      one order compares "different" against the other. */
  lemma SetOrderCanLookLikeAChange()
    ensures var xs := [Pair("a", "X"), Pair("b", "Y")];
            var swapped := [Pair("b", "Y"), Pair("a", "X")];
            && IsDedupOf(xs, xs) && IsDedupOf(swapped, xs)
            && CacheMatches(xs, xs) && !CacheMatches(xs, swapped)
  {
    var xs := [Pair("a", "X"), Pair("b", "Y")];
    var swapped := [Pair("b", "Y"), Pair("a", "X")];
    assert xs[0].title != swapped[0].title;
    assert xs[0] in swapped && xs[1] in swapped;
    assert swapped[0] in xs && swapped[1] in xs;
  }
}

=== FILE: pipeline.dfy ===
/** `scrape_news_links` and `summarize_news`: the per-item stages between the
    cache decision and the post. The browser, the search request and the
    article extractor are collaborators passed in; `None` from one of them
    stands for the exception it raises. */
module Pipeline {
  import opened PyStr
  import opened Wrappers
  import opened Listing
  import opened Search
  import opened TextSummarizer

  /** `[date, title, link, body]`; after summarising, `body` holds the summary. */
  datatype Article = Article(date: string, title: string, link: string, body: string)

  datatype Collaborators = Collaborators(
    /** The hrefs of the result divs of a search page, or `None` if the request fails. */
    search: string -> Option<seq<string>>,
    /** `driver.get(link)` then the extractor's cleaned text, or `None` on any error. */
    render: string -> Option<string>,
    /** The summarisation model on already truncated text, or `None` if it raises. */
    model: string -> Option<string>)

  /** The result links of the search page for `query`, or `None` if the
      request fails. */
  function Results(query: string, c: Collaborators): Option<seq<string>> {
    c.search(SearchUrl(query))
  }

  /** `google(query)`: the selected result link for the query. It fails only
      when the search request fails; it answers `""` when the page has no
      results, and otherwise one of the result links: the first that does
      not mention youtube if there is one, and the last link if all do. */
  function Google(query: string, c: Collaborators): (r: Option<string>)
    ensures r.Some? <==> Results(query, c).Some?
    ensures r.Some? ==>
      var hrefs := Results(query, c).value;
      && (|hrefs| == 0 ==> r.value == "")
      && (|hrefs| > 0 ==> r.value in hrefs)
      && (|hrefs| > 0 && AllSkipped(hrefs) ==> r.value == hrefs[|hrefs| - 1])
      && (forall i :: 0 <= i < |hrefs| && !Contains(hrefs[i], Skipped) && AllSkipped(hrefs[..i]) ==>
            r.value == hrefs[i])
  {
    match Results(query, c)
    case None => None
    case Some(hrefs) => Some(SelectLink(hrefs))
  }

  /** The `try` block for one listing entry: search for `title + " news"`,
      open the link, extract the text. Any failure drops the entry. */
  function ResolveItem(p: Pair, c: Collaborators): (r: Option<Article>)
    ensures r.Some? ==> r.value.date == p.date && r.value.title == p.title
    ensures r.Some? <==> Google(p.title + " news", c).Some? && c.render(Google(p.title + " news", c).value).Some?
    ensures r.Some? ==> r.value.link == Google(p.title + " news", c).value
    ensures r.Some? ==> r.value.body == c.render(r.value.link).value
  {
    match Google(p.title + " news", c)
    case None => None
    case Some(link) =>
      match c.render(link)
      case None => None
      case Some(body) => Some(Article(p.date, p.title, link, body))
  }

  /** What each listing entry resolves to, position by position. */
  function Outcomes(news: seq<Pair>, c: Collaborators): (os: seq<Option<Article>>)
    ensures |os| == |news|
    ensures forall i :: 0 <= i < |news| ==> os[i] == ResolveItem(news[i], c)
  {
    seq(|news|, i requires 0 <= i < |news| => ResolveItem(news[i], c))
  }

  /** `scrape_news_links`: a filter-map that keeps, in input order, the
      entries that resolved and drops the rest. */
  function ScrapeNewsLinks(news: seq<Pair>, c: Collaborators): (r: seq<Article>)
    ensures |r| <= |news|
  {
    if |news| == 0 then []
    else
      var rest := ScrapeNewsLinks(news[1..], c);
      match ResolveItem(news[0], c)
      case None => rest
      case Some(a) => [a] + rest
  }

  /** Every scraped article is the successful resolution of a listing entry. */
  lemma {:induction false} ScrapedArticlesResolve(news: seq<Pair>, c: Collaborators)
    ensures forall a :: a in ScrapeNewsLinks(news, c) ==> Some(a) in Outcomes(news, c)
  {
    if |news| > 0 {
      ScrapedArticlesResolve(news[1..], c);
      OutcomesStep(news, c);
    }
  }

  lemma OutcomesStep(news: seq<Pair>, c: Collaborators)
    requires |news| > 0
    ensures Outcomes(news, c) == [ResolveItem(news[0], c)] + Outcomes(news[1..], c)
  {
    var whole := Outcomes(news, c);
    var rest := Outcomes(news[1..], c);
    forall i | 1 <= i < |news|
      ensures whole[i] == rest[i - 1]
    {
      assert news[1..][i - 1] == news[i];
    }
    assert whole == [whole[0]] + whole[1..];
    assert whole[1..] == rest;
  }

  /** Every scraped article carries the date and title of a listing entry. */
  lemma ScrapedArticlesComeFromListing(news: seq<Pair>, c: Collaborators)
    ensures forall a :: a in ScrapeNewsLinks(news, c) ==> Pair(a.date, a.title) in news
  {
    ScrapedArticlesResolve(news, c);
    forall a | a in ScrapeNewsLinks(news, c) ensures Pair(a.date, a.title) in news {
      var i :| 0 <= i < |news| && Outcomes(news, c)[i] == Some(a);
      assert news[i] == Pair(a.date, a.title);
    }
  }

  /** Scraping a concatenation scrapes each part in turn. */
  lemma {:induction false} ScrapeAppend(xs: seq<Pair>, ys: seq<Pair>, c: Collaborators)
    ensures ScrapeNewsLinks(xs + ys, c) == ScrapeNewsLinks(xs, c) + ScrapeNewsLinks(ys, c)
  {
    if |xs| > 0 {
      assert (xs + ys)[1..] == xs[1..] + ys;
      ScrapeAppend(xs[1..], ys, c);
    } else {
      assert xs + ys == ys;
    }
  }

  /** An entry that fails to resolve is simply left out: the entries before and
      after it come through in their order. */
  lemma ScrapeDropsFailure(news: seq<Pair>, i: nat, c: Collaborators)
    requires i < |news| && ResolveItem(news[i], c).None?
    ensures ScrapeNewsLinks(news, c) == ScrapeNewsLinks(news[..i], c) + ScrapeNewsLinks(news[i + 1..], c)
  {
    assert news == news[..i] + ([news[i]] + news[i + 1..]);
    ScrapeAppend(news[..i], [news[i]] + news[i + 1..], c);
    assert ([news[i]] + news[i + 1..])[1..] == news[i + 1..];
  }

  /** An entry that resolves is never lost: its article is in the output,
      after the articles of the entries before it and before those after it. */
  lemma ScrapeKeepsResolved(news: seq<Pair>, i: nat, c: Collaborators)
    requires i < |news| && ResolveItem(news[i], c).Some?
    ensures ScrapeNewsLinks(news, c)
            == ScrapeNewsLinks(news[..i], c) + [ResolveItem(news[i], c).value] + ScrapeNewsLinks(news[i + 1..], c)
    ensures ResolveItem(news[i], c).value in ScrapeNewsLinks(news, c)
  {
    assert news == news[..i] + ([news[i]] + news[i + 1..]);
    ScrapeAppend(news[..i], [news[i]] + news[i + 1..], c);
    assert ([news[i]] + news[i + 1..])[1..] == news[i + 1..];
  }

  /** When every entry resolves, scraping is a length-preserving map. */
  lemma {:induction false} ScrapeAllResolved(news: seq<Pair>, c: Collaborators)
    requires forall i :: 0 <= i < |news| ==> ResolveItem(news[i], c).Some?
    ensures |ScrapeNewsLinks(news, c)| == |news|
    ensures forall i :: 0 <= i < |news| ==> ScrapeNewsLinks(news, c)[i] == ResolveItem(news[i], c).value
  {
    if |news| > 0 {
      var tail := news[1..];
      assert forall i :: 0 <= i < |tail| ==> tail[i] == news[i + 1];
      ScrapeAllResolved(tail, c);
      var a := ResolveItem(news[0], c).value;
      var r := ScrapeNewsLinks(news, c);
      assert r == [a] + ScrapeNewsLinks(tail, c);
      assert forall i :: 1 <= i < |news| ==> r[i] == ScrapeNewsLinks(tail, c)[i - 1];
    }
  }

  /** One item of `summarize_news`: the body is replaced by its summary. */
  function SummarizeItem(a: Article, c: Collaborators): Option<Article>
  {
    match Summarize(a.body, c.model)
    case None => None
    case Some(s) => Some(a.(body := s))
  }

  /** `summarize_news`: a map with no per-item `try`, so one failing summary
      aborts the whole batch (`None`); otherwise every entry keeps its date,
      title and link and has its body replaced by the summary. */
  function SummarizeNews(news: seq<Article>, c: Collaborators): (r: Option<seq<Article>>)
    ensures r.Some? <==> forall i :: 0 <= i < |news| ==> Summarize(news[i].body, c.model).Some?
    ensures r.Some? ==> |r.value| == |news|
    ensures r.Some? ==> forall i :: 0 <= i < |news| ==>
      && r.value[i].date == news[i].date
      && r.value[i].title == news[i].title
      && r.value[i].link == news[i].link
      && Some(r.value[i].body) == Summarize(news[i].body, c.model)
  {
    if |news| == 0 then Some([])
    else
      assert forall i :: 0 <= i < |news[1..]| ==> news[1..][i] == news[i + 1];
      match SummarizeItem(news[0], c)
      case None => None
      case Some(a) =>
        match SummarizeNews(news[1..], c)
        case None => None
        case Some(rest) =>
          var r := [a] + rest;
          assert forall k :: 1 <= k < |r| ==> r[k] == rest[k - 1];
          Some(r)
  }

  /** One failing summary fails the whole batch. */
  lemma SummaryFailureAborts(news: seq<Article>, c: Collaborators, i: nat)
    requires i < |news| && Summarize(news[i].body, c.model).None?
    ensures SummarizeNews(news, c).None?
  {
  }
}

=== FILE: poll.dfy ===
/** One poll of a feed, `scan_us_news` (the world feed, `scan_world_news`,
    follows the same steps): compare the fresh listing with the cached one,
    and either stop, or overwrite the cache and run the whole listing through
    scrape, summarise and post. The pickle file is the `cache` state; the
    observable actions of the poll are returned in order as effects. */
module Poll {
  import opened Wrappers
  import opened Listing
  import opened Pipeline
  import opened Digest
  import opened TextSummarizer

  datatype Effect =
    | WriteCache(listing: seq<Pair>)
    | Scrape(listing: seq<Pair>)
    | Summarise(articles: seq<Article>)
    | Post(description: string)

  datatype PollResult = PollResult(cache: Option<seq<Pair>>, effects: seq<Effect>)

  /** The early return: a cache file exists and compares "same". */
  predicate Quiet(cache: Option<seq<Pair>>, listing: seq<Pair>) {
    cache.Some? && CacheMatches(cache.value, listing)
  }

  /** One poll, given the deduplicated listing in the order the set
      produced. A summariser exception ends the poll after the cache write and
      before the post. */
  function Poll(cache: Option<seq<Pair>>, listing: seq<Pair>, c: Collaborators): (r: PollResult)
    ensures r.effects == [] <==> Quiet(cache, listing)
    ensures r.effects == [] ==> r.cache == cache
    ensures cache.None? ==> r.effects != []
    ensures r.effects != [] ==>
      && r.cache == Some(listing)
      && 3 <= |r.effects| <= 4
      && r.effects[0] == WriteCache(listing)
      && r.effects[1] == Scrape(listing)
      && r.effects[2] == Summarise(ScrapeNewsLinks(listing, c))
    ensures r.effects != [] ==>
      (|r.effects| == 4 <==> SummarizeNews(ScrapeNewsLinks(listing, c), c).Some?)
    ensures |r.effects| == 4 ==>
      && r.effects[3] == Post(Description(SummarizeNews(ScrapeNewsLinks(listing, c), c).value))
      && |r.effects[3].description| <= DescriptionLimit
      && r.effects[3].description <= Blocks(SummarizeNews(ScrapeNewsLinks(listing, c), c).value)
  {
    if Quiet(cache, listing) then PollResult(cache, [])
    else
      var scraped := ScrapeNewsLinks(listing, c);
      var run := [WriteCache(listing), Scrape(listing), Summarise(scraped)];
      match SummarizeNews(scraped, c)
      case None => PollResult(Some(listing), run)
      case Some(summaries) => PollResult(Some(listing), run + [Post(Description(summaries))])
  }

  /** The whole poll from the scraped date and headline lists. */
  function Scan(cache: Option<seq<Pair>>, dates: seq<string>, headlines: seq<string>, limit: int,
                listing: seq<Pair>, c: Collaborators): (r: PollResult)
    requires IsDedupOf(listing, FreshListing(dates, headlines, limit))
    ensures r.effects != [] ==> r.cache == Some(listing)
    ensures r.cache.Some? && r.effects != [] ==>
      && NoDuplicates(r.cache.value)
      && |r.cache.value| <= |dates| && |r.cache.value| <= |headlines|
      && (0 <= limit ==> |r.cache.value| <= limit)
      && (forall i :: 0 <= i < |r.cache.value| ==> r.cache.value[i] in FreshListing(dates, headlines, limit))
  {
    DedupListingBounded(listing, dates, headlines, limit);
    Poll(cache, listing, c)
  }

  /** Polls one after another, each seeing the cache the previous one left.
      This describes only polls that return: a summariser exception is not
      caught by the poll or by the loop that schedules it, so in the bot it
      ends the loop, while here it ends one poll and the next one runs. */
  function PollMany(cache: Option<seq<Pair>>, listings: seq<seq<Pair>>, c: Collaborators): (r: PollResult)
    ensures r.cache == cache || exists k :: 0 <= k < |listings| && r.cache == Some(listings[k])
    ensures |listings| > 0 ==> r.cache.Some?
    ensures r.effects == [] ==> r.cache == cache
    ensures |r.effects| <= 4 * |listings|
    decreases |listings|
  {
    if |listings| == 0 then PollResult(cache, [])
    else
      var first := Poll(cache, listings[0], c);
      var rest := PollMany(first.cache, listings[1..], c);
      assert forall k :: 0 <= k < |listings| - 1 ==> listings[1..][k] == listings[k + 1];
      PollResult(rest.cache, first.effects + rest.effects)
  }

  /** One more tick: the run's cache is what the last tick's poll leaves, and
      its effects are those of the earlier ticks followed by the last one's. */
  lemma {:induction false} PollManyLastTick(cache: Option<seq<Pair>>, listings: seq<seq<Pair>>,
                                           l: seq<Pair>, c: Collaborators)
    ensures var prior := PollMany(cache, listings, c);
            var last := Poll(prior.cache, l, c);
            PollMany(cache, listings + [l], c) == PollResult(last.cache, prior.effects + last.effects)
    decreases |listings|
  {
    if |listings| == 0 {
      assert listings + [l] == [l];
      assert [l][1..] == [];
    } else {
      var first := Poll(cache, listings[0], c);
      var before := PollMany(first.cache, listings[1..], c);
      var after := PollMany(first.cache, listings[1..] + [l], c);
      var last := Poll(before.cache, l, c);
      assert (listings + [l])[0] == listings[0];
      assert (listings + [l])[1..] == listings[1..] + [l];
      var whole := PollMany(cache, listings + [l], c);
      var prefix := PollMany(cache, listings, c);
      assert whole.cache == after.cache && whole.effects == first.effects + after.effects by {
        PollManyStep(cache, listings + [l], c);
      }
      assert prefix.cache == before.cache && prefix.effects == first.effects + before.effects by {
        PollManyStep(cache, listings, c);
      }
      assert after.cache == last.cache && after.effects == before.effects + last.effects by {
        PollManyLastTick(first.cache, listings[1..], l, c);
      }
      AppendAssoc(first.effects, before.effects, last.effects);
    }
  }

  lemma AppendAssoc(xs: seq<Effect>, ys: seq<Effect>, zs: seq<Effect>)
    ensures xs + (ys + zs) == (xs + ys) + zs
  {
  }

  /** The first tick, then the rest of the run from the cache it left. */
  lemma PollManyStep(cache: Option<seq<Pair>>, listings: seq<seq<Pair>>, c: Collaborators)
    requires |listings| > 0
    ensures PollMany(cache, listings, c).cache
            == PollMany(Poll(cache, listings[0], c).cache, listings[1..], c).cache
    ensures PollMany(cache, listings, c).effects
            == Poll(cache, listings[0], c).effects + PollMany(Poll(cache, listings[0], c).cache, listings[1..], c).effects
  {
  }

  /** Polling the same listing twice: the second poll is quiet, whatever the
      first one did. */
  lemma ReplayIsQuiet(cache: Option<seq<Pair>>, listing: seq<Pair>, c: Collaborators)
    ensures Poll(Poll(cache, listing, c).cache, listing, c).effects == []
  {
    var first := Poll(cache, listing, c);
    if first.effects != [] {
      CacheMatchesOnTitlePrefix(listing, listing);
    }
  }

  /** A listing that differs from the cache only in its dates is quiet. */
  lemma DateOnlyChangesAreQuiet(cached: seq<Pair>, listing: seq<Pair>, c: Collaborators)
    requires Titles(cached) == Titles(listing)
    ensures Poll(Some(cached), listing, c) == PollResult(Some(cached), [])
  {
    CacheMatchesOnTitlePrefix(cached, listing);
  }

  /** Once the cached listing is empty, every later poll compares "same" and
      nothing is ever posted again. Only a cold start that finds no headlines
      writes an empty cache: a warm poll that finds none already compares
      "same" and keeps the cache it had. */
  lemma {:induction false} EmptyCacheStaysQuiet(listings: seq<seq<Pair>>, c: Collaborators)
    ensures PollMany(Some([]), listings, c) == PollResult(Some([]), [])
  {
    if |listings| > 0 {
      EmptyCacheStaysQuiet(listings[1..], c);
    }
  }

  /** A cold start on an empty listing still posts, with an empty description. */
  lemma ColdStartPostsEvenWhenEmpty(c: Collaborators)
    ensures Poll(None, [], c).effects == [WriteCache([]), Scrape([]), Summarise([]), Post("")]
    ensures Poll(None, [], c).cache == Some([])
  {
  }

  /** A summariser failure loses the batch: the cache has already moved on,
      nothing is posted, and replaying the listing stays quiet. */
  lemma SummaryFailureLosesBatch(cache: Option<seq<Pair>>, listing: seq<Pair>, c: Collaborators, i: nat)
    requires !Quiet(cache, listing)
    requires i < |ScrapeNewsLinks(listing, c)|
    requires Summarize(ScrapeNewsLinks(listing, c)[i].body, c.model).None?
    ensures Poll(cache, listing, c).cache == Some(listing)
    ensures forall e :: e in Poll(cache, listing, c).effects ==> !e.Post?
    ensures Poll(Poll(cache, listing, c).cache, listing, c).effects == []
  {
    SummaryFailureAborts(ScrapeNewsLinks(listing, c), c, i);
    ReplayIsQuiet(cache, listing, c);
  }

  /** The cache is replaced, not merged, and the whole listing is scraped
      again, not only the new headline: after [X, Y, Z] the listing
      [Y, Z, W] scrapes all three and the cache forgets X. */
  lemma WholeListingIsReprocessed(c: Collaborators)
    ensures var prior := [Pair("t1", "X"), Pair("t2", "Y"), Pair("t3", "Z")];
            var current := [Pair("t2", "Y"), Pair("t3", "Z"), Pair("t4", "W")];
            && Poll(Some(prior), current, c).effects[1] == Scrape(current)
            && Poll(Some(prior), current, c).cache == Some(current)
  {
    var prior := [Pair("t1", "X"), Pair("t2", "Y"), Pair("t3", "Z")];
    var current := [Pair("t2", "Y"), Pair("t3", "Z"), Pair("t4", "W")];
    CacheMismatchAt(prior, current, 0);
  }
}

=== FILE: pystr.dfy ===
/** Models of the Python `str` primitives the bot relies on: whitespace
    splitting, splitting on one separator, joining, substring search and
    `str.replace`. Strings are sequences of code points, as in Python 3. */
module PyStr {

  /** Python's `min` on two integers. */
  function Min(a: int, b: int): int {
    if a < b then a else b
  }

  /** The characters `str.isspace()` accepts, which are the separators of
      `str.split()` called without an argument. */
  predicate IsSpace(c: char) {
    || c == ' ' || c == '\t' || c == '\n' || c == '\r'
    || c == '\U{0B}' || c == '\U{0C}'
    || ('\U{1C}' <= c <= '\U{1F}')
    || c == '\U{85}' || c == '\U{A0}' || c == '\U{1680}'
    || ('\U{2000}' <= c <= '\U{200A}')
    || c == '\U{2028}' || c == '\U{2029}' || c == '\U{202F}'
    || c == '\U{205F}' || c == '\U{3000}'
  }

  predicate NoSpace(s: string) {
    forall i :: 0 <= i < |s| ==> !IsSpace(s[i])
  }

  /** One element of `s.split()`: a non-empty run without whitespace. */
  predicate IsWord(w: string) {
    |w| > 0 && NoSpace(w)
  }

  predicate AllWords(ws: seq<string>) {
    forall k :: 0 <= k < |ws| ==> IsWord(ws[k])
  }

  /** Length of the run of non-whitespace characters at the front of `s`. */
  function WordLen(s: string): (n: nat)
    ensures n <= |s|
    ensures NoSpace(s[..n])
    ensures n == |s| || IsSpace(s[n])
  {
    if |s| == 0 || IsSpace(s[0]) then 0
    else
      var n := 1 + WordLen(s[1..]);
      assert s[..n] == [s[0]] + s[1..][..n - 1];
      n
  }

  /** `s.split()`: the maximal runs of non-whitespace characters of `s`, in order. */
  function Words(s: string): (ws: seq<string>)
    ensures AllWords(ws)
    decreases |s|
  {
    if |s| == 0 then []
    else if IsSpace(s[0]) then Words(s[1..])
    else
      var n := WordLen(s);
      [s[..n]] + Words(s[n..])
  }

  /** One step of `split()` at a non-whitespace character: the first word,
      then the words of what follows it. */
  lemma WordsStep(s: string)
    requires |s| > 0 && !IsSpace(s[0])
    ensures Words(s) == [s[..WordLen(s)]] + Words(s[WordLen(s)..])
  {
  }

  /** `split()` skips a whitespace character. */
  lemma WordsFromSpace(s: string, n: nat)
    requires n < |s| && IsSpace(s[n])
    ensures Words(s[n..]) == Words(s[n + 1..])
  {
    assert s[n..][1..] == s[n + 1..];
  }

  /** `sep.join(parts)`. */
  function Join(parts: seq<string>, sep: string): string
  {
    if |parts| == 0 then ""
    else if |parts| == 1 then parts[0]
    else parts[0] + sep + Join(parts[1..], sep)
  }

  /** Index of the first `c` in `s`, or `|s|` when there is none. */
  function IndexOf(s: string, c: char): (i: nat)
    ensures i <= |s|
    ensures i < |s| ==> s[i] == c
    ensures c !in s[..i]
  {
    if |s| == 0 || s[0] == c then 0
    else
      var i := 1 + IndexOf(s[1..], c);
      assert s[..i] == [s[0]] + s[1..][..i - 1];
      i
  }

  /** `s.split(sep)` for a one-character separator: never empty, and empty
      fields are kept. */
  function Split(s: string, sep: char): (fields: seq<string>)
    ensures |fields| >= 1
    ensures forall k :: 0 <= k < |fields| ==> sep !in fields[k]
    decreases |s|
  {
    var i := IndexOf(s, sep);
    if i == |s| then [s] else [s[..i]] + Split(s[i + 1..], sep)
  }

  /** `sub in s` for strings: `sub` occurs in `s` as a contiguous block. */
  predicate Contains(s: string, sub: string)
    decreases |s|
  {
    sub <= s || (|s| > 0 && Contains(s[1..], sub))
  }

  /** `s.replace(pat, rep)` for a non-empty pattern: occurrences are found
      left to right and do not overlap; the replacement text is not rescanned. */
  function Replace(s: string, pat: string, rep: string): string
    requires |pat| > 0
    decreases |s|
  {
    if |s| == 0 then ""
    else if pat <= s then rep + Replace(s[|pat|..], pat, rep)
    else [s[0]] + Replace(s[1..], pat, rep)
  }

  // ---------------------------------------------------------------------
  // Splitting on whitespace and joining with one space are inverse.

  lemma {:induction false} WordLenAppend(w: string, t: string)
    requires NoSpace(w)
    ensures WordLen(w + t) == |w| + WordLen(t)
    decreases |w|
  {
    if |w| > 0 {
      assert (w + t)[1..] == w[1..] + t;
      WordLenAppend(w[1..], t);
    } else {
      assert w + t == t;
    }
  }

  lemma WordsLeadingSpace(c: char, s: string)
    requires IsSpace(c)
    ensures Words([c] + s) == Words(s)
  {
    assert ([c] + s)[1..] == s;
  }

  lemma WordsOfWord(w: string)
    requires IsWord(w)
    ensures Words(w) == [w]
  {
    WordLenAppend(w, "");
    assert w + "" == w;
    assert w[..|w|] == w;
    assert w[|w|..] == "";
  }

  lemma WordsOfWordThenSpace(w: string, rest: string)
    requires IsWord(w)
    ensures Words(w + " " + rest) == [w] + Words(rest)
  {
    var s := w + " " + rest;
    assert s == w + (" " + rest);
    WordLenAppend(w, " " + rest);
    assert WordLen(" " + rest) == 0;
    assert s[0] == w[0];
    assert s[..|w|] == w;
    assert s[|w|..] == [' '] + rest;
    WordsLeadingSpace(' ', rest);
  }

  /** `Join(ws, " ").split() == ws` whenever `ws` are words. */
  lemma {:induction false} WordsOfJoin(ws: seq<string>)
    requires AllWords(ws)
    ensures Words(Join(ws, " ")) == ws
  {
    if |ws| == 0 {
    } else if |ws| == 1 {
      WordsOfWord(ws[0]);
    } else {
      WordsOfJoin(ws[1..]);
      WordsOfWordThenSpace(ws[0], Join(ws[1..], " "));
      assert ws == [ws[0]] + ws[1..];
    }
  }

  /** `s.split()` sees only which characters are whitespace: replacing
      whitespace by other whitespace leaves the words unchanged. */
  ghost predicate SameWordShape(s: string, s': string) {
    && |s| == |s'|
    && forall i :: 0 <= i < |s| ==>
         (IsSpace(s[i]) <==> IsSpace(s'[i])) && (!IsSpace(s[i]) ==> s[i] == s'[i])
  }

  lemma {:induction false} WordLenSameShape(s: string, s': string)
    requires SameWordShape(s, s')
    ensures WordLen(s) == WordLen(s')
    ensures s[..WordLen(s)] == s'[..WordLen(s)]
    decreases |s|
  {
    if |s| > 0 && !IsSpace(s[0]) {
      assert SameWordShape(s[1..], s'[1..]);
      WordLenSameShape(s[1..], s'[1..]);
      var n := WordLen(s);
      assert s[..n] == [s[0]] + s[1..][..n - 1];
      assert s'[..n] == [s'[0]] + s'[1..][..n - 1];
    }
  }

  lemma {:induction false} WordsSameShape(s: string, s': string)
    requires SameWordShape(s, s')
    ensures Words(s) == Words(s')
    decreases |s|
  {
    if |s| > 0 {
      if IsSpace(s[0]) {
        assert SameWordShape(s[1..], s'[1..]);
        WordsSameShape(s[1..], s'[1..]);
      } else {
        WordLenSameShape(s, s');
        var n := WordLen(s);
        assert SameWordShape(s[n..], s'[n..]);
        WordsSameShape(s[n..], s'[n..]);
      }
    }
  }

  /** Joining whitespace-free parts with a whitespace-free separator yields
      no whitespace. */
  lemma {:induction false} JoinNoSpace(parts: seq<string>, sep: string)
    requires forall k :: 0 <= k < |parts| ==> NoSpace(parts[k])
    requires NoSpace(sep)
    ensures NoSpace(Join(parts, sep))
  {
    if |parts| > 1 {
      JoinNoSpace(parts[1..], sep);
      var r := Join(parts[1..], sep);
      var s := parts[0] + sep + r;
      assert forall i :: 0 <= i < |parts[0]| ==> s[i] == parts[0][i];
      assert forall i :: 0 <= i < |sep| ==> s[|parts[0]| + i] == sep[i];
      assert forall i :: 0 <= i < |r| ==> s[|parts[0]| + |sep| + i] == r[i];
    }
  }

  // ---------------------------------------------------------------------
  // Splitting on one separator and joining with it are inverse.

  lemma JoinCons(a: string, rest: seq<string>, sep: string)
    requires |rest| >= 1
    ensures Join([a] + rest, sep) == a + sep + Join(rest, sep)
  {
    assert ([a] + rest)[1..] == rest;
  }

  /** `"".join(parts)` is plain concatenation: one part, then the rest. */
  lemma JoinNothingStep(parts: seq<string>)
    requires |parts| >= 1
    ensures Join(parts, "") == parts[0] + Join(parts[1..], "")
  {
  }

  /** `"".join` over a concatenation of lists concatenates the results. */
  lemma {:induction false} JoinNothingAppend(xs: seq<string>, ys: seq<string>)
    ensures Join(xs + ys, "") == Join(xs, "") + Join(ys, "")
  {
    if |xs| > 0 {
      assert (xs + ys)[1..] == xs[1..] + ys;
      JoinNothingStep(xs + ys);
      JoinNothingStep(xs);
      JoinNothingAppend(xs[1..], ys);
    } else {
      assert xs + ys == ys;
    }
  }

  /** One step of `split`: the text before the first separator, then the
      fields of the rest. */
  lemma SplitStep(s: string, sep: char)
    requires IndexOf(s, sep) < |s|
    ensures Split(s, sep) == [s[..IndexOf(s, sep)]] + Split(s[IndexOf(s, sep) + 1..], sep)
    ensures s == s[..IndexOf(s, sep)] + [sep] + s[IndexOf(s, sep) + 1..]
  {
  }

  /** `sep.join(s.split(sep)) == s`. */
  lemma {:induction false} JoinSplit(s: string, sep: char)
    ensures Join(Split(s, sep), [sep]) == s
    decreases |s|
  {
    var i := IndexOf(s, sep);
    if i < |s| {
      var tail := s[i + 1..];
      JoinSplit(tail, sep);
      SplitStep(s, sep);
      JoinCons(s[..i], Split(tail, sep), [sep]);
    }
  }

  lemma IndexOfFieldThenSep(f: string, sep: char, rest: string)
    requires sep !in f
    ensures IndexOf(f + [sep] + rest, sep) == |f|
  {
    var s := f + [sep] + rest;
    assert s[|f|] == sep;
    assert forall j :: 0 <= j < |f| ==> s[j] == f[j];
  }

  lemma IndexOfField(f: string, sep: char)
    requires sep !in f
    ensures IndexOf(f, sep) == |f|
  {
  }

  /** `sep.join(fields).split(sep) == fields` when no field holds `sep`. */
  lemma {:induction false} SplitJoin(fields: seq<string>, sep: char)
    requires |fields| >= 1
    requires forall k :: 0 <= k < |fields| ==> sep !in fields[k]
    ensures Split(Join(fields, [sep]), sep) == fields
  {
    if |fields| == 1 {
      IndexOfField(fields[0], sep);
    } else {
      var f := fields[0];
      var rest := Join(fields[1..], [sep]);
      var s := f + [sep] + rest;
      assert fields == [f] + fields[1..];
      JoinCons(f, fields[1..], [sep]);
      IndexOfFieldThenSep(f, sep, rest);
      SplitStep(s, sep);
      assert s[..|f|] == f;
      assert s[|f| + 1..] == rest;
      SplitJoin(fields[1..], sep);
    }
  }

  /** Joining the first `k` parts gives a prefix of joining them all. */
  lemma {:induction false} JoinPrefix(parts: seq<string>, sep: string, k: nat)
    requires k <= |parts|
    ensures Join(parts[..k], sep) <= Join(parts, sep)
  {
    if 2 <= k {
      var rest := parts[1..];
      assert parts[..k] == [parts[0]] + rest[..k - 1];
      assert parts == [parts[0]] + rest;
      JoinCons(parts[0], rest[..k - 1], sep);
      JoinCons(parts[0], rest, sep);
      JoinPrefix(rest, sep, k - 1);
      PrefixAfter(parts[0] + sep, Join(rest[..k - 1], sep), Join(rest, sep));
    } else if k == 1 {
      assert parts[..k] == [parts[0]];
      if 2 <= |parts| {
        JoinCons(parts[0], parts[1..], sep);
        assert parts == [parts[0]] + parts[1..];
      } else {
        assert parts[..k] == parts;
      }
    }
  }

  /** Putting the same text in front keeps one text a prefix of another. */
  lemma PrefixAfter(a: string, j: string, t: string)
    requires j <= t
    ensures a + j <= a + t
  {
    assert (a + t)[..|a + j|] == a + t[..|j|];
  }

  // ---------------------------------------------------------------------
  // Facts about `str.replace`.

  /** Replacing a one-character pattern by one character maps characters one
      for one. */
  lemma {:induction false} ReplaceCharIsPointwise(s: string, a: char, b: char)
    ensures |Replace(s, [a], [b])| == |s|
    ensures forall i :: 0 <= i < |s| ==> Replace(s, [a], [b])[i] == (if s[i] == a then b else s[i])
    decreases |s|
  {
    if |s| > 0 {
      ReplaceCharIsPointwise(s[1..], a, b);
      var r := Replace(s, [a], [b]);
      var tail := Replace(s[1..], [a], [b]);
      if [a] <= s {
        assert s[|[a]|..] == s[1..];
        assert r == [b] + tail;
      } else {
        assert r == [s[0]] + tail;
      }
      assert forall i :: 1 <= i < |s| ==> r[i] == tail[i - 1] && s[i] == s[1..][i - 1];
    }
  }

  /** Deleting every occurrence of `pat` can splice a new occurrence together,
      so the result of `s.replace("www.", "")` may still contain `"www."`. */
  lemma ReplaceCanLeaveThePattern()
    ensures Replace("wwwww.w.", "www.", "") == "www."
    ensures Contains(Replace("wwwww.w.", "www.", ""), "www.")
  {
    var s := "wwwww.w.";
    assert s[3] != "www."[3];
    assert s[1..] == "wwww.w.";
    assert s[1..][3] != "www."[3];
    assert s[1..][1..] == "www.w.";
    assert "www." <= s[1..][1..];
    assert s[1..][1..][4..] == "w.";
    assert "w."[1..] == ".";
    assert "."[1..] == "";
  }

  /** Where `pat` does not occur, `s.replace(pat, rep)` is `s`. */
  lemma {:induction false} ReplaceAbsent(s: string, pat: string, rep: string)
    requires |pat| > 0
    requires !Contains(s, pat)
    ensures Replace(s, pat, rep) == s
    decreases |s|
  {
    if |s| > 0 {
      ReplaceAbsent(s[1..], pat, rep);
      assert s == [s[0]] + s[1..];
    }
  }

  /** `s.replace(pat, rep)` only brings in characters of `s` and of `rep`. */
  lemma {:induction false} ReplaceKeepsOut(s: string, pat: string, rep: string, c: char)
    requires |pat| > 0
    requires c !in s && c !in rep
    ensures c !in Replace(s, pat, rep)
    decreases |s|
  {
    if |s| > 0 {
      if pat <= s {
        ReplaceKeepsOut(s[|pat|..], pat, rep, c);
      } else {
        ReplaceKeepsOut(s[1..], pat, rep, c);
      }
    }
  }
}

=== FILE: search.dfy ===
/** The pure parts of `NewsBot.google`: building the search query from a
    headline and choosing a result link. The HTTP request and the HTML parse
    that produce the result links are a parameter of the pipeline. */
module Search {
  import opened PyStr

  const SearchPrefix: string := "https://www.google.com/search?q="
  const Skipped: string := "youtube"

  /** `"+".join(query.split())`: the words of the query joined by `+`. */
  function QueryString(query: string): (q: string)
    ensures NoSpace(q)
    ensures Words(query) == [] ==> q == ""
    ensures |Words(query)| > 0 && (forall k :: 0 <= k < |Words(query)| ==> '+' !in Words(query)[k])
            ==> Split(q, '+') == Words(query)
  {
    var ws := Words(query);
    JoinNoSpace(ws, "+");
    if |ws| > 0 && forall k :: 0 <= k < |ws| ==> '+' !in ws[k] then
      SplitJoin(ws, '+'); Join(ws, "+")
    else Join(ws, "+")
  }

  function SearchUrl(query: string): string {
    SearchPrefix + QueryString(query)
  }

  predicate AllSkipped(hrefs: seq<string>) {
    forall j :: 0 <= j < |hrefs| ==> Contains(hrefs[j], Skipped)
  }

  /** The link loop of `google`: each result's href overwrites the answer; the
      loop stops at the first href without "youtube". So the answer is that
      href, or the last href when all of them mention youtube, or `""` when
      there are no results. */
  function SelectLink(hrefs: seq<string>): (link: string)
    ensures |hrefs| == 0 ==> link == ""
    ensures forall i :: 0 <= i < |hrefs| && !Contains(hrefs[i], Skipped) && AllSkipped(hrefs[..i])
              ==> link == hrefs[i]
    ensures |hrefs| > 0 && AllSkipped(hrefs) ==> link == hrefs[|hrefs| - 1]
    ensures |hrefs| > 0 ==> link in hrefs
  {
    if |hrefs| == 0 then ""
    else if !Contains(hrefs[0], Skipped) || |hrefs| == 1 then hrefs[0]
    else
      var rest := hrefs[1..];
      assert forall i :: 1 <= i <= |hrefs| ==> hrefs[..i][1..] == rest[..i - 1];
      assert forall i :: 1 <= i < |hrefs| ==> hrefs[i] == rest[i - 1];
      SelectLink(rest)
  }
}

=== FILE: summarizer.dfy ===
/** The text handling of `_summarizer.py`: `Summarizer.clean_text` and the
    input truncation at the start of `Summarizer.summarize`. The summarisation
    model itself is a parameter. */
module TextSummarizer {
  import opened Wrappers
  import opened PyStr

  /** The model's input limit, in space-separated fields. */
  const MaxInputFields: nat := 512

  /** The shape `clean_text` produces: the only whitespace is single `' '`
      characters, each between two non-whitespace characters. */
  predicate Normalised(s: string) {
    forall i :: 0 <= i < |s| && IsSpace(s[i]) ==>
      s[i] == ' ' && 0 < i < |s| - 1 && !IsSpace(s[i - 1]) && !IsSpace(s[i + 1])
  }

  /** `clean_text`: newlines become spaces, then the text is split on
      whitespace and rejoined with single spaces. */
  function CleanText(text: string): (r: string)
    ensures '\n' !in r
    ensures Normalised(r)
    ensures Words(r) == Words(text)
  {
    var spaced := Replace(text, "\n", " ");
    NewlinesAreSpace(text);
    JoinNormalised(Words(spaced));
    WordsOfJoin(Words(spaced));
    Join(Words(spaced), " ")
  }

  lemma NewlinesAreSpace(text: string)
    ensures Words(Replace(text, "\n", " ")) == Words(text)
  {
    ReplaceCharIsPointwise(text, '\n', ' ');
    WordsSameShape(text, Replace(text, "\n", " "));
  }

  lemma JoinStartsWithFirstWord(ws: seq<string>)
    requires |ws| > 0 && AllWords(ws)
    ensures |Join(ws, " ")| > 0 && Join(ws, " ")[0] == ws[0][0]
  {
  }

  /** Words joined by single spaces are in normal form. */
  lemma {:induction false} JoinNormalised(ws: seq<string>)
    requires AllWords(ws)
    ensures Normalised(Join(ws, " "))
  {
    if |ws| > 1 {
      var w := ws[0];
      var r := Join(ws[1..], " ");
      var s := Join(ws, " ");
      JoinNormalised(ws[1..]);
      JoinStartsWithFirstWord(ws[1..]);
      assert s == w + " " + r;
      assert forall i :: 0 <= i < |w| ==> s[i] == w[i];
      forall i | 0 <= i < |s| && IsSpace(s[i])
        ensures s[i] == ' ' && 0 < i < |s| - 1 && !IsSpace(s[i - 1]) && !IsSpace(s[i + 1])
      {
        if i > |w| {
          var j := i - |w| - 1;
          assert s[i] == r[j];
          assert 0 < j ==> s[i - 1] == r[j - 1];
          assert j + 1 < |r| ==> s[i + 1] == r[j + 1];
        }
      }
    }
  }

  /** A suffix of a normalised text that starts at a non-space is normalised. */
  lemma NormalisedSuffix(s: string, k: nat)
    requires Normalised(s)
    requires k < |s| && !IsSpace(s[k])
    ensures Normalised(s[k..])
  {
    var rest := s[k..];
    forall j | 0 <= j < |rest| && IsSpace(rest[j])
      ensures rest[j] == ' ' && 0 < j < |rest| - 1 && !IsSpace(rest[j - 1]) && !IsSpace(rest[j + 1])
    {
      assert rest[j] == s[k + j];
      assert k + j + 1 < |s| ==> rest[j + 1] == s[k + j + 1];
      assert 0 < j ==> rest[j - 1] == s[k + j - 1];
    }
  }

  /** In a normalised text, the first character is not whitespace and, when
      there is more than one word, the first word is followed by one space and
      a non-space. */
  lemma NormalisedAfterFirstWord(s: string)
    requires Normalised(s) && |s| > 0
    ensures !IsSpace(s[0])
    ensures WordLen(s) < |s| ==> s[WordLen(s)] == ' ' && WordLen(s) + 1 < |s| && !IsSpace(s[WordLen(s) + 1])
  {
    var n := WordLen(s);
    assert n < |s| ==> IsSpace(s[n]);
  }

  lemma WordsAfterWordAndSpace(s: string)
    requires |s| > 0 && !IsSpace(s[0]) && WordLen(s) < |s|
    ensures Words(s) == [s[..WordLen(s)]] + Words(s[WordLen(s) + 1..])
  {
    WordsStep(s);
    WordsFromSpace(s, WordLen(s));
  }

  lemma WordsOfOneWord(s: string)
    requires |s| > 0 && !IsSpace(s[0]) && WordLen(s) == |s|
    ensures Words(s) == [s]
  {
    assert s[..|s|] == s;
  }

  /** A normalised text is the join of its own words. */
  lemma {:induction false} NormalisedIsJoinOfWords(s: string)
    requires Normalised(s)
    ensures Join(Words(s), " ") == s
    decreases |s|
  {
    if |s| > 0 {
      NormalisedAfterFirstWord(s);
      var n := WordLen(s);
      if n == |s| {
        WordsOfOneWord(s);
      } else {
        var rest := s[n + 1..];
        assert Normalised(rest) by { NormalisedSuffix(s, n + 1); }
        assert Words(s) == [s[..n]] + Words(rest) by { WordsAfterWordAndSpace(s); }
        assert |Words(rest)| > 0 by { NormalisedAfterFirstWord(rest); }
        assert s == s[..n] + " " + rest by { SpaceAt(s, n); }
        NormalisedIsJoinOfWords(rest);
        JoinFirstWord(s, s[..n], rest);
      }
    }
  }

  /** A text with a space at `n` is what comes before it, the space, and what
      comes after it. */
  lemma SpaceAt(s: string, n: nat)
    requires n < |s| && s[n] == ' '
    ensures s == s[..n] + " " + s[n + 1..]
  {
  }

  /** The join step behind `NormalisedIsJoinOfWords`: a first word, one
      space, and a rest that is already the join of its words. */
  lemma JoinFirstWord(s: string, w: string, rest: string)
    requires Words(s) == [w] + Words(rest) && |Words(rest)| > 0
    requires Join(Words(rest), " ") == rest && s == w + " " + rest
    ensures Join(Words(s), " ") == s
  {
    PyStr.JoinCons(w, Words(rest), " ");
  }

  /** The texts `clean_text` leaves unchanged are exactly the normalised ones. */
  lemma CleanTextFixpoints(s: string)
    ensures CleanText(s) == s <==> Normalised(s)
  {
    if Normalised(s) {
      NormalisedIsJoinOfWords(s);
      NewlinesAreSpace(s);
    }
  }

  /** Cleaning twice is the same as cleaning once. */
  lemma CleanTextIdempotent(text: string)
    ensures CleanText(CleanText(text)) == CleanText(text)
  {
    CleanTextFixpoints(CleanText(text));
  }

  /** `" ".join(text.split(" ")[:n])`: keeps the first `n` space-separated
      fields. */
  function TruncateFields(text: string, n: nat): (r: string)
    ensures r <= text
    ensures |Split(text, ' ')| <= n ==> r == text
    ensures n > 0 ==> |Split(r, ' ')| <= n
    ensures n > 0 ==> Split(r, ' ') == Split(text, ' ')[..Min(n, |Split(text, ' ')|)]
  {
    var fields := Split(text, ' ');
    var k := if n < |fields| then n else |fields|;
    JoinSplit(text, ' ');
    JoinPrefix(fields, " ", k);
    assert fields[..|fields|] == fields;
    if k > 0 then SplitJoin(fields[..k], ' '); Join(fields[..k], " ")
    else Join(fields[..k], " ")
  }

  /** `Summarizer.summarize`: the model sees the text cut to its input limit.
      `None` stands for an exception raised by the model. */
  function Summarize(text: string, model: string -> Option<string>): (r: Option<string>)
    ensures |Split(text, ' ')| <= MaxInputFields ==> r == model(text)
    ensures |Split(text, ' ')| > MaxInputFields ==>
      r == model(Join(Split(text, ' ')[..MaxInputFields], " "))
  {
    model(TruncateFields(text, MaxInputFields))
  }

  /** `TruncateFields` at the model's limit of 512 fields, the instance
      `Summarize` uses: the model input is a prefix of the article body made
      of its first fields, and the whole body when it is short enough. */
  lemma SummarizeInputBounded(text: string)
    ensures TruncateFields(text, MaxInputFields) <= text
    ensures |Split(TruncateFields(text, MaxInputFields), ' ')| <= MaxInputFields
    ensures |Split(text, ' ')| <= MaxInputFields ==> TruncateFields(text, MaxInputFields) == text
    ensures Split(TruncateFields(text, MaxInputFields), ' ')
            == Split(text, ' ')[..Min(MaxInputFields, |Split(text, ' ')|)]
  {
  }
}

=== FILE: wrappers.dfy ===
/** The optional value used wherever the bot either obtains something or hits an
    exception it swallows (or that aborts the rest of the cycle). */
module Wrappers {

  datatype Option<+T> = None | Some(value: T)
}
